=== FILE: README.md ===
# Stag Lore landing page: a Dafny model of its two scripts

This project models the logic under the DOM glue of the Stag Lore landing
page. The page shows a background illustration with a book hotspot, an
ember animation over the book, and a lore reader that opens from the book.

- `script.js` pins a hotspot (`#bookAnchor`) to the book sprite in the
  background. The background is scaled with the `object-fit: cover` rule.
  On hover or focus it runs a spark animation on a canvas that fits the
  hotspot.
  - `BookAnchor` models the cover-fit mapping, `snapBook` and the device
    pixel ratio clamp of `resizeCanvas`.
  - `Sparks` models the bounded spark buffer (`spawn`, `step`, the
    backwards cull loop) and the `start`/`stop` state machine, driven by an
    explicit event sequence.
- `app.js` is the lore reader. It holds a table of three spreads, opens and
  closes, turns forward with a 1.26 s page-flip that locks navigation, and
  jumps back one spread without a flip. It also spawns decorative embers.
  - `Reader` models the navigation state (spread index, open flag, flip
    lock, pending flip target) and the text written by `setSpread` and
    `doFlip`.
  - `Embers` models `spawnEmbers`.
- `Draws` is the `rand(a, b)` helper, which both scripts define in the same
  way. `Options` is a plain optional value.

Host inputs become parameters:

- each `Math.random()` value is a unit draw in [0, 1);
- `window.innerWidth/innerHeight`, `devicePixelRatio`, the anchor's
  bounding box and the background's `complete` flag are arguments of the
  `Resize` event;
- the id returned by `requestAnimationFrame` is an argument of the `Enter`
  and `Frame` events;
- each animation-frame callback is a `Frame` event;
- the flip's 1260 ms timeout is a `FlipTimer` event.

All arithmetic is over `real`.

Three behaviours of the code are kept as written:

- The cull removes a spark only when `t > life` (script.js:90). A spark
  at `t == life` survives with opacity 0.
- `stop` clears the canvas but leaves the spark array as it is
  (script.js:101-106). The next `start` empties it.
- Spawn positions use the backing-store size `canvas.width/height`, but
  drawing uses CSS pixels through the ratio transform. At a ratio of 2 a
  spark can start beyond the drawn box (`Sparks.SpawnBeyondCssBox`). The
  model keeps this.

## Model

| member | source | states |
|---|---|---|
| Draws.Rand | script.js:57 | a unit draw lands in [lo, hi) for lo < hi, at lo for an empty interval, and in (hi, lo] for a reversed interval |
| Draws.RandOnto | app.js:79 | every value of [lo, hi) comes from exactly one unit draw, so the stated ranges are tight |
| Draws.RandInverse | script.js:57 | the draw can be recovered from the value, so `rand` is injective in the draw |
| Draws.RandMonotone | app.js:79 | a larger draw gives a larger value |
| BookAnchor.CoverScale | script.js:24-27 | the scaled image covers the viewport in both dimensions and fits it exactly along at least one axis |
| BookAnchor.CoverScaleIsLeast | script.js:24 | no smaller scale covers the viewport, so the cover scale is the least covering scale |
| BookAnchor.Cover | script.js:24-30 | both offsets are non-positive, at least one is zero, and the image centre lands on the viewport centre |
| BookAnchor.ViewportRoundTrip | script.js:24-33 | for a non-empty viewport the image-to-viewport mapping is invertible: mapping a point there and back returns it |
| BookAnchor.AnchorRect | script.js:32-35 | the hotspot's corners are the images of the sprite box's corners under the cover mapping, and its aspect ratio is 411:610 |
| BookAnchor.AnchorSizeLinear | script.js:24-35 | scaling the viewport by k scales the hotspot's position and size by k |
| BookAnchor.FullHdExample | script.js:8-35 | 1920x1080 gives scale 1.25, offsets (0, -100) and hotspot (1627.5, 978.75, 513.75, 762.5) |
| BookAnchor.EffectiveDpr | script.js:42 | the ratio used is at most 2; a zero (falsy) ratio becomes 1; a ratio up to 2 is kept; a non-negative ratio gives a positive one |
| BookAnchor.EffectiveDprIdempotent | script.js:42 | clamping an already clamped ratio changes nothing |
| BookAnchor.ResizeCanvas | script.js:40-50 | the CSS size is the anchor's box, the backing store is that size through the transform's ratio, and it is at most twice the box |
| BookAnchor.SnapBook | script.js:17-38 | nothing changes until the background is complete; then the anchor takes the hotspot box and the canvas is resized |
| BookAnchor.SnapBookIdempotent | script.js:17-38 | snapping twice with the same inputs equals snapping once |
| Sparks.NewSpark | script.js:60-67 | a new spark has age 0, x in [0.35w, 0.65w), y in [0.6h, 0.8h), vx in [-0.15, 0.15), vy in [-0.9, -0.4) (upward), r in [0.8, 2.2) and life in [30, 60) |
| Sparks.NewSparkOnto | script.js:60-67 | every newborn spark within those ranges is produced by some draw |
| Sparks.Push | script.js:59-70 | the pushed spark is last; below capacity it is appended; at capacity exactly the oldest is evicted; a buffer within 60 stays within 60 |
| Sparks.Spawn | script.js:59-70 | below capacity the new spark is appended to the buffer; at capacity the oldest spark is dropped and the new one appended; a buffer within 60 stays within 60 |
| Sparks.PushKeeps | script.js:59-70 | a push keeps any per-entry property that the pushed entry also has |
| Sparks.PushAllIsWindow | script.js:59-70 | any run of spawns leaves exactly the newest 60 sparks of the whole history, in spawn order |
| Sparks.Advance | script.js:78-80 | one frame adds 1 to the age, the position moves by exactly the velocity, and velocity, radius and lifetime are kept |
| Sparks.AdvanceByIsLinear | script.js:77-80 | k frames of motion add k to the age and k velocity steps to the position, and change nothing else |
| Sparks.AdvanceKeepsWellFormed | script.js:77-80 | motion keeps velocity, radius and lifetime, so a spark keeps its spawn ranges |
| Sparks.Alpha | script.js:82 | the opacity is the share of the lifetime still to run: at most 1, exactly 1 at age 0, and `alpha * life = life - t` |
| Sparks.AlphaFalls | script.js:78-82 | one frame lowers the opacity `1 - t/life` by exactly 1/life |
| Sparks.AlphaNonIncreasing | script.js:78-82 | the opacity never rises with age over any number of frames |
| Sparks.AliveIffVisible | script.js:82-90 | a spark survives the cull exactly when its opacity is non-negative, and its opacity is 0 at t = life |
| Sparks.AdvanceAll | script.js:77-80 | every spark is aged by one and moved by its velocity, in place and in order |
| Sparks.AdvanceAllKeepsWellFormed | script.js:77-80 | aging every spark keeps each within its spawn ranges |
| Sparks.Survivors | script.js:89-91 | every kept spark is alive and came from the input, and the cull never grows the buffer |
| Sparks.SurvivorsAppend | script.js:89-91 | the cull distributes over concatenation, so survivors keep their relative order |
| Sparks.SurvivorsMembership | script.js:89-91 | a spark is kept exactly when it was present and alive |
| Sparks.SurvivorsKeeps | script.js:89-91 | the cull keeps any per-spark property of its input |
| Sparks.SurvivorsOfLive | script.js:89-91 | a buffer of live sparks passes the cull unchanged |
| Sparks.CullTurn | script.js:89-91 | one turn of the loop at index i extends the culled suffix by one: the entry is spliced out exactly when it is dead |
| Sparks.Cull | script.js:89-91 | the backwards splice loop computes exactly the order-preserving filter `Survivors` |
| Sparks.Idle | script.js:53-55 | the initial engine is stopped with nothing pending and no sparks, so `stop` leaves it as it is, and it satisfies the engine invariant |
| Sparks.Step | script.js:72-92 | a step schedules the next frame under the new handle and keeps the running flag and the capacity bound; the buffer becomes the older sparks that outlive the frame, aged by one and in their order (the oldest evicted first at capacity), followed by the spark spawned in it; no spark with t > life is left |
| Sparks.AdvanceAllAppend | script.js:77-80 | aging a buffer with one more spark at the end ages the older sparks as before and that spark last |
| Sparks.StepMembership | script.js:59-91 | the sparks left after a step are exactly the sparks of the spawned buffer, one frame older, that are still alive |
| Sparks.AgeAndCullMembership | script.js:77-91 | each spark left after aging and culling is a spark of the buffer one frame older and alive, and every such spark is left |
| Sparks.StepKeepsWellFormed | script.js:59-91 | after a step every buffered spark is still within its spawn ranges |
| Sparks.Start | script.js:94-99 | starting while running changes nothing; otherwise the engine runs with one spark aged 1 and a pending frame |
| Sparks.Stop | script.js:101-106 | after stop the engine is not running and no frame is pending; the spark array is left as it was |
| Sparks.StartIdempotent | script.js:94-95 | a second start finds the engine running and changes nothing |
| Sparks.StopIdempotent | script.js:101-106 | stopping twice equals stopping once |
| Sparks.Apply | script.js:108-115 | a resize or load runs `snapBook` on the layout and leaves the engine alone; enter starts the engine and a pending frame steps it, both spawning over the backing-store size `canvas.width/height`; leave is exactly `stop`, so the spark array is kept; a frame with nothing pending changes nothing |
| Sparks.ApplyKeepsInv | script.js:53-115 | every event keeps the invariant: a frame pending iff running, at most 60 sparks, each within spawn ranges and alive |
| Sparks.Run | script.js:53-115 | the invariant holds after any event sequence from a state that satisfies it |
| Sparks.IdleInv | script.js:53-55 | the initial engine satisfies the invariant, so every reachable engine does |
| Sparks.SpawnBeyondCssBox | script.js:44-61 | at a ratio of 2 a spawn can place a spark beyond the canvas's CSS width |
| Reader.Shown | app.js:119-126 | a page is written with each present field verbatim and each absent field as "" |
| Reader.LeftTitleIdentifiesSpread | app.js:46-59 | a property of the content table: its three left-page titles are distinct |
| Reader.OrEmpty | app.js:119-126 | a missing text field is written as "" and a present one as itself |
| Reader.NatStr | app.js:128 | a number prints as a non-empty string of decimal digits with no leading zero, of length 1 exactly for 0-9 |
| Reader.Indicator | app.js:128 | the indicator reads "Spread ", then the numeral of idx + 1 (which parses back to idx + 1), then " of 3" |
| Reader.IndicatorInjective | app.js:128 | two spreads with the same indicator text are the same spread |
| Reader.NatStrInjective | app.js:128 | distinct spread numbers print as distinct numerals |
| Reader.FirstIndicator | app.js:128 | the first spread's indicator reads "Spread 1 of 3" |
| Reader.SetSpread | app.js:114-128 | an out-of-range index writes nothing; otherwise both pages and the indicator show that spread and the flip leaf is kept |
| Reader.SetSpreadOverwrites | app.js:114-128 | what a set spread shows does not depend on the pages shown before |
| Reader.Initial | app.js:61-63 | the reader starts on spread index 0, closed, not flipping and with no flip pending, on a state satisfying the reachable-state invariant, with the page text as the markup holds it |
| Reader.DoFlip | app.js:156-177 | ignored while flipping or for an out-of-range target; otherwise locks, records the target, and puts the current right page and the target's left page on the leaf |
| Reader.FlipDone | app.js:181-188 | the timer commits the recorded target, shows it, and releases the lock; with no timer armed nothing happens |
| Reader.Back | app.js:210-219 | no-op at index 0 or while flipping; otherwise the index drops by exactly one and that spread is shown |
| Reader.OpenReader | app.js:131-140 | opening when open does nothing; otherwise it opens and shows the current spread; index and lock are kept |
| Reader.CloseReader | app.js:142-150 | closing leaves the reader closed and keeps the index, the lock, the pending target and the page text |
| Reader.KeyDown | app.js:222-233 | ignored while closed; Escape closes, ArrowRight requests the next spread, ArrowLeft goes back, other keys do nothing |
| Reader.Apply | app.js:194-233 | the book click runs `openReader`, a click on a close control runs `closeReader` and any other reader click does nothing, the right zone requests the next spread, the left zone goes back, a key runs `keydown`, and the flip timer commits; every event keeps the index in range and the pending target equal to index + 1 exactly while flipping |
| Reader.Run | app.js:194-233 | the same invariant holds after any event sequence |
| Reader.IndexAlwaysInRange | app.js:156-158 | from the initial state the spread index stays in [0, 3) under every event sequence |
| Reader.FirstOpenShowsSpreadOne | app.js:194-197 | the first book click opens the reader on index 0 with the indicator "Spread 1 of 3" |
| Reader.FlipIsLock | app.js:156-157 | while flipping, every event except the timer leaves the index and the pending target unchanged |
| Reader.FlipCommitsNext | app.js:181-188 | the timer moves exactly one spread forward, releases the lock and shows the new indicator |
| Reader.TurnForward | app.js:205-208 | a right-zone click then the timer lands on the next spread, or changes nothing on the last spread |
| Reader.CloseDoesNotCancelFlip | app.js:142-150 | closing mid-flip keeps the lock, and the timer still commits the target |
| Reader.BackStepsOne | app.js:210-231 | the left zone goes back exactly one spread when allowed, otherwise does nothing; ArrowLeft on an open reader does the same |
| Reader.OpenCloseIdempotent | app.js:131-150 | opening twice equals opening once, and closing twice equals closing once |
| Reader.KeysIgnoredWhenClosed | app.js:222-223 | no key changes a closed reader |
| Embers.MakeEmber | app.js:94-99 | an ember has x in [36, 64), y in [44, 92), size in [6, 14), duration in [2.8, 5.6) and delay in [0, 2.6) |
| Embers.MakeEmberOnto | app.js:94-99 | every ember within those ranges is produced by some draw |
| Embers.SpawnOnLoad | app.js:73 | the load-time spawn fills a present wrapper with exactly 14 in-range embers and leaves an absent one absent |
| Embers.SpawnEmbers | app.js:81-109 | with no wrapper nothing happens; otherwise the old embers are discarded and exactly `count` new ones (none for a negative count) are built from the draws in order, all within range |

## Left out

- DOM writes are not modelled, only the values they carry: `classList`,
  `aria-hidden`, the `no-scroll` class, style strings, `innerHTML`,
  `createElement`. The reader's `flipping` CSS class is visual only.
- The listener registration is not modelled. The events it wires up are
  `Sparks.Event` and `Reader.Event`.
- `requestAnimationFrame`/`cancelAnimationFrame` are not modelled. A frame
  handle is an event argument, and a frame callback is a `Frame` event that
  is only taken while a frame is pending.
- The timers are left out: `ready` at 480 ms, `spawnEmbers(14)` at 520 ms
  (its count, `Embers.LoadCount`, is kept in `Embers.SpawnOnLoad`), and the flip's 1260 ms,
  which becomes the `FlipTimer` event.
- Canvas drawing is not modelled: `clearRect`, `arc`, `fill`, the
  `rgba(...)` fill style, `setTransform`. The opacity `1 - t/life` is
  modelled as `Sparks.Alpha`. The transform's ratio is kept as
  `Canvas.ratio`.
- The browser truncates `canvas.width/height` to integers. This is not
  modelled; backing-store sizes are reals.
- IEEE-754 rounding, `NaN` and `undefined` are not modelled. A `NaN` or
  absent `devicePixelRatio` (which `|| 1` also maps to 1) has no `real`
  counterpart. Only the zero case is modelled.
- `getBoundingClientRect`, `window.innerWidth/innerHeight` and
  `bgImg.complete` are host reads and are taken as parameters.
- All reader elements are assumed present. The optional-chaining paths for
  a missing `#book`, `#reader` or zone only skip wiring, and they are not
  modelled. The missing `.embers` wrapper is modelled.
- `Reader.DoFlip` requires the current index to be in range when both
  guards pass, because the source reads `spreads[spreadIndex]` there.
  `Reader.Inv` proves this holds in every reachable state.
- `Sparks.Apply` and `Sparks.Run` require host-valid events: draws in
  [0, 1) and a non-zero frame handle.

=== FILE: book_anchor.dfy ===
/**
  The background mapping of `script.js`: the book hotspot is pinned to a
  sprite box measured in the background image's own pixels, and the image is
  shown with the `object-fit: cover` rule. `SnapBook` recomputes the
  hotspot rectangle from the viewport size and then resizes the ember
  canvas to the hotspot's box.
 */
module BookAnchor {

  import Draws

  /** Intrinsic size of the background image, in image pixels. */
  const ImgW: real := 1536.0
  const ImgH: real := 1024.0

  /** The book sprite's box inside the background image, in image pixels. */
  const SpriteX: real := 1302.0
  const SpriteY: real := 863.0
  const SpriteW: real := 411.0
  const SpriteH: real := 610.0

  /** The largest device pixel ratio the canvas backing store honours. */
  const MaxDpr: real := 2.0

  /** A box in viewport (CSS) pixels: what the anchor's style receives. */
  datatype Rect = Rect(left: real, top: real, width: real, height: real)

  /** How the image is laid over the viewport: image pixel p lands at offset + p * scale. */
  datatype Fit = Fit(scale: real, offsetX: real, offsetY: real)

  /**
    The ember canvas after a resize: the backing-store size, the CSS size
    and the drawing transform's uniform scale.
   */
  datatype Canvas = Canvas(width: real, height: real, cssWidth: real, cssHeight: real, ratio: real)

  /** The page geometry the script owns: the anchor's box and the canvas. */
  datatype Layout = Layout(anchor: Rect, canvas: Canvas)

  function Max(a: real, b: real): real {
    if a < b then b else a
  }

  function Min(a: real, b: real): real {
    if a < b then a else b
  }

  /** The cover scale: the scaled image covers the viewport and fits it exactly along one axis. */
  function CoverScale(vw: real, vh: real): (s: real)
    ensures ImgW * s >= vw && ImgH * s >= vh
    ensures ImgW * s == vw || ImgH * s == vh
  {
    Max(vw / ImgW, vh / ImgH)
  }

  /** No smaller scale covers the viewport: cover is the least covering scale. */
  lemma CoverScaleIsLeast(vw: real, vh: real, s: real)
    requires ImgW * s >= vw && ImgH * s >= vh
    ensures CoverScale(vw, vh) <= s
  {
    assert vw / ImgW <= s;
    assert vh / ImgH <= s;
  }

  /** The cover fit with a centred crop. */
  function Cover(vw: real, vh: real): (f: Fit)
    ensures f.scale == CoverScale(vw, vh)
    ensures f.offsetX <= 0.0 && f.offsetY <= 0.0
    ensures f.offsetX == 0.0 || f.offsetY == 0.0
    // the image's centre lands on the viewport's centre
    ensures f.offsetX + ImgW * f.scale / 2.0 == vw / 2.0
    ensures f.offsetY + ImgH * f.scale / 2.0 == vh / 2.0
  {
    var scale := CoverScale(vw, vh);
    var scaledW := ImgW * scale;
    var scaledH := ImgH * scale;
    Fit(scale, (vw - scaledW) / 2.0, (vh - scaledH) / 2.0)
  }

  /** Image x coordinate to viewport x coordinate. */
  function ToViewportX(f: Fit, x: real): real {
    f.offsetX + x * f.scale
  }

  /** Image y coordinate to viewport y coordinate. */
  function ToViewportY(f: Fit, y: real): real {
    f.offsetY + y * f.scale
  }

  /** Viewport x coordinate back to image x coordinate. */
  function ToImageX(f: Fit, vx: real): real
    requires f.scale != 0.0
  {
    (vx - f.offsetX) / f.scale
  }

  /** Viewport y coordinate back to image y coordinate. */
  function ToImageY(f: Fit, vy: real): real
    requires f.scale != 0.0
  {
    (vy - f.offsetY) / f.scale
  }

  /** The viewport mapping is invertible whenever the viewport is not empty. */
  lemma ViewportRoundTrip(vw: real, vh: real, x: real, y: real)
    requires vw > 0.0 || vh > 0.0
    ensures Cover(vw, vh).scale > 0.0
    ensures ToImageX(Cover(vw, vh), ToViewportX(Cover(vw, vh), x)) == x
    ensures ToImageY(Cover(vw, vh), ToViewportY(Cover(vw, vh), y)) == y
  {
    var f := Cover(vw, vh);
    assert f.scale >= vw / ImgW && f.scale >= vh / ImgH;
  }

  /**
    The hotspot box: the sprite box carried through the cover mapping.
    Both corners of the sprite box land on the matching corners of the
    result, and the aspect ratio of the sprite is kept.
   */
  function AnchorRect(vw: real, vh: real): (r: Rect)
    ensures var f := Cover(vw, vh);
      && r.left == ToViewportX(f, SpriteX)
      && r.top == ToViewportY(f, SpriteY)
      && r.left + r.width == ToViewportX(f, SpriteX + SpriteW)
      && r.top + r.height == ToViewportY(f, SpriteY + SpriteH)
    ensures r.width * SpriteH == r.height * SpriteW
  {
    var f := Cover(vw, vh);
    Rect(f.offsetX + SpriteX * f.scale, f.offsetY + SpriteY * f.scale,
         SpriteW * f.scale, SpriteH * f.scale)
  }

  /** The hotspot's size is linear in the cover scale, and so in the viewport along the fitting axis. */
  lemma AnchorSizeLinear(vw: real, vh: real, k: real)
    requires k > 0.0
    ensures AnchorRect(k * vw, k * vh).width == k * AnchorRect(vw, vh).width
    ensures AnchorRect(k * vw, k * vh).height == k * AnchorRect(vw, vh).height
    ensures AnchorRect(k * vw, k * vh).left == k * AnchorRect(vw, vh).left
    ensures AnchorRect(k * vw, k * vh).top == k * AnchorRect(vw, vh).top
  {
    var a, b := vw / ImgW, vh / ImgH;
    var ka, kb := (k * vw) / ImgW, (k * vh) / ImgH;
    assert ka == k * a;
    assert kb == k * b;
    var s := CoverScale(vw, vh);
    var ks := CoverScale(k * vw, k * vh);
    assert ks == k * s by {
      if a < b {
        assert s == b;
        assert k * a < k * b;
        assert ks == kb;
      } else {
        assert s == a;
        assert k * a >= k * b;
        assert ks == ka;
      }
    }
    assert Cover(k * vw, k * vh).offsetX == k * Cover(vw, vh).offsetX;
    assert Cover(k * vw, k * vh).offsetY == k * Cover(vw, vh).offsetY;
  }

  /** The full-HD viewport: scale 1.25, offsets (0, -100), hotspot (1627.5, 978.75, 513.75, 762.5). */
  lemma FullHdExample()
    ensures Cover(1920.0, 1080.0) == Fit(1.25, 0.0, -100.0)
    ensures AnchorRect(1920.0, 1080.0) == Rect(1627.5, 978.75, 513.75, 762.5)
  {
    assert CoverScale(1920.0, 1080.0) == 1.25;
  }

  /** The device pixel ratio the canvas uses: a zero (falsy) ratio reads as 1, and the ratio is capped at 2. */
  function EffectiveDpr(dpr: real): (r: real)
    ensures r <= MaxDpr
    ensures dpr == 0.0 ==> r == 1.0
    ensures dpr != 0.0 && dpr <= MaxDpr ==> r == dpr
    ensures dpr > MaxDpr ==> r == MaxDpr
    ensures dpr >= 0.0 ==> r > 0.0
  {
    Min(MaxDpr, if dpr == 0.0 then 1.0 else dpr)
  }

  /** Clamping the ratio twice is clamping it once. */
  lemma EffectiveDprIdempotent(dpr: real)
    ensures EffectiveDpr(EffectiveDpr(dpr)) == EffectiveDpr(dpr)
  {
  }

  /**
    Resize the canvas to the anchor's bounding box: the CSS size is the box,
    the transform scale is the clamped ratio, and the backing store is the
    CSS size seen through that transform.
   */
  function ResizeCanvas(boundsWidth: real, boundsHeight: real, dpr: real): (c: Canvas)
    ensures c.cssWidth == boundsWidth && c.cssHeight == boundsHeight
    ensures c.ratio == EffectiveDpr(dpr)
    ensures c.width == c.cssWidth * c.ratio && c.height == c.cssHeight * c.ratio
    ensures dpr >= 0.0 && boundsWidth >= 0.0 ==> 0.0 <= c.width <= MaxDpr * boundsWidth
    ensures dpr >= 0.0 && boundsHeight >= 0.0 ==> 0.0 <= c.height <= MaxDpr * boundsHeight
  {
    var ratio := EffectiveDpr(dpr);
    BackingBound(boundsWidth, ratio);
    BackingBound(boundsHeight, ratio);
    Canvas(boundsWidth * ratio, boundsHeight * ratio, boundsWidth, boundsHeight, ratio)
  }

  /** A non-negative length seen through a ratio in (0, 2] grows at most twofold. */
  lemma BackingBound(len: real, ratio: real)
    ensures len >= 0.0 && 0.0 < ratio <= MaxDpr ==> 0.0 <= len * ratio <= MaxDpr * len
  {
    if len >= 0.0 && 0.0 < ratio <= MaxDpr {
      Draws.MulNonNegative(len, ratio);
      Draws.MulNonNegative(len, MaxDpr - ratio);
    }
  }

  /**
    `snapBook`: nothing changes while the background image is still loading;
    once it is complete the anchor takes the hotspot box and the canvas is
    resized to the anchor's bounding box as the host reports it.
   */
  function SnapBook(l: Layout, complete: bool, vw: real, vh: real,
                    dpr: real, boundsWidth: real, boundsHeight: real): (r: Layout)
    ensures !complete ==> r == l
    ensures complete ==> r.anchor == AnchorRect(vw, vh)
    ensures complete ==> r.canvas == ResizeCanvas(boundsWidth, boundsHeight, dpr)
  {
    if !complete then l
    else Layout(AnchorRect(vw, vh), ResizeCanvas(boundsWidth, boundsHeight, dpr))
  }

  /** Snapping twice with the same inputs is snapping once. */
  lemma SnapBookIdempotent(l: Layout, complete: bool, vw: real, vh: real,
                           dpr: real, bw: real, bh: real)
    ensures SnapBook(SnapBook(l, complete, vw, vh, dpr, bw, bh), complete, vw, vh, dpr, bw, bh)
         == SnapBook(l, complete, vw, vh, dpr, bw, bh)
  {
  }
}

=== FILE: draws.dfy ===
/**
  The `rand(a, b)` helper that both scripts define identically:
  `Math.random() * (b - a) + a`. The host's random source is not part of
  the model; each draw is passed in as a unit value `u` in [0, 1).
 */
module Draws {

  /** A value the host's `Math.random()` can return. */
  predicate Unit(u: real) {
    0.0 <= u < 1.0
  }

  /** Stretch the unit draw `u` onto the half-open interval [lo, hi). */
  function Rand(u: real, lo: real, hi: real): (r: real)
    ensures lo < hi && Unit(u) ==> lo <= r < hi
    ensures lo == hi ==> r == lo
    ensures hi < lo && Unit(u) ==> hi < r <= lo
  {
    var d := hi - lo;
    var p := u * d;
    ProductBounds(u, d, p);
    p + lo
  }

  /** Sign of a product of two non-negative reals. */
  lemma MulNonNegative(a: real, b: real)
    requires a >= 0.0 && b >= 0.0
    ensures a * b >= 0.0
  {
  }

  /** Sign of a product of two positive reals. */
  lemma MulPositive(a: real, b: real)
    requires a > 0.0 && b > 0.0
    ensures a * b > 0.0
  {
  }

  /** A unit draw shrinks a span `d` of either sign towards zero; `p` is the product `u * d`. */
  lemma ProductBounds(u: real, d: real, p: real)
    requires p == u * d
    ensures Unit(u) && d > 0.0 ==> 0.0 <= p < d
    ensures Unit(u) && d < 0.0 ==> d < p <= 0.0
  {
    if Unit(u) && d > 0.0 {
      MulNonNegative(u, d);
      MulPositive(1.0 - u, d);
      assert (1.0 - u) * d == d - p;
    } else if Unit(u) && d < 0.0 {
      MulNonNegative(u, -d);
      MulPositive(1.0 - u, -d);
      assert u * -d == -p;
      assert (1.0 - u) * -d == p - d;
    }
  }

  /** Dividing the product `p = u * d` by a non-zero `d` gives back `u`. */
  lemma DivCancel(u: real, d: real, p: real)
    requires d != 0.0
    requires p == u * d
    ensures p / d == u
  {
  }

  /** A draw can be recovered from the value it produced: `Rand` is injective in `u`. */
  lemma RandInverse(u: real, lo: real, hi: real)
    requires lo != hi
    ensures (Rand(u, lo, hi) - lo) / (hi - lo) == u
  {
    var d := hi - lo;
    var p := u * d;
    assert Rand(u, lo, hi) - lo == p;
    DivCancel(u, d, p);
  }

  /** Every value of [lo, hi) is produced by exactly one unit draw. */
  lemma RandOnto(r: real, lo: real, hi: real)
    requires lo < hi
    requires lo <= r < hi
    ensures Unit((r - lo) / (hi - lo))
    ensures Rand((r - lo) / (hi - lo), lo, hi) == r
  {
    var u := (r - lo) / (hi - lo);
    assert u * (hi - lo) == r - lo;
    assert 0.0 <= u by {
      if u < 0.0 {
        MulPositive(-u, hi - lo);
      }
    }
    assert u < 1.0 by {
      if u >= 1.0 {
        MulNonNegative(u - 1.0, hi - lo);
      }
    }
  }

  /** Larger draws give larger values on a forward interval. */
  lemma RandMonotone(u1: real, u2: real, lo: real, hi: real)
    requires lo < hi
    requires u1 <= u2
    ensures Rand(u1, lo, hi) <= Rand(u2, lo, hi)
  {
    var d := hi - lo;
    MulNonNegative(u2 - u1, d);
    assert (u2 - u1) * d == u2 * d - u1 * d;
  }
}

=== FILE: embers.dfy ===
/**
  The decorative embers of `app.js`: `spawnEmbers(count)` empties the
  book's ember wrapper and fills it with `count` fresh embers whose CSS
  custom properties are drawn at random. The wrapper's children are kept
  as a sequence of `Ember` values; the five `Math.random()` values of each
  ember are passed in.
 */
module Embers {

  import Draws
  import opened Options

  /** The number of embers spawned once the page has loaded. */
  const LoadCount: int := 14

  /**
    One ember's custom properties: position in percent of the book,
    size in pixels, animation duration and delay in seconds.
   */
  datatype Ember = Ember(x: real, y: real, size: real, duration: real, delay: real)

  /** The five unit draws one ember consumes, in the order they are drawn. */
  datatype EmberDraw = EmberDraw(ux: real, uy: real, us: real, ud: real, udelay: real) {
    predicate Valid() {
      Draws.Unit(ux) && Draws.Unit(uy) && Draws.Unit(us) && Draws.Unit(ud) && Draws.Unit(udelay)
    }
  }

  /** The ranges every spawned ember falls in. */
  predicate InRange(e: Ember) {
    && 36.0 <= e.x < 64.0
    && 44.0 <= e.y < 92.0
    && 6.0 <= e.size < 14.0
    && 2.8 <= e.duration < 5.6
    && 0.0 <= e.delay < 2.6
  }

  /** One ember from its draws. */
  function MakeEmber(d: EmberDraw): (e: Ember)
    requires d.Valid()
    ensures InRange(e)
  {
    Ember(Draws.Rand(d.ux, 36.0, 64.0), Draws.Rand(d.uy, 44.0, 92.0), Draws.Rand(d.us, 6.0, 14.0),
          Draws.Rand(d.ud, 2.8, 5.6), Draws.Rand(d.udelay, 0.0, 2.6))
  }

  /** Every ember within the ranges is one the spawn can produce. */
  lemma MakeEmberOnto(e: Ember)
    requires InRange(e)
    ensures exists d: EmberDraw :: d.Valid() && MakeEmber(d) == e
  {
    var d := EmberDraw((e.x - 36.0) / (64.0 - 36.0), (e.y - 44.0) / (92.0 - 44.0),
                       (e.size - 6.0) / (14.0 - 6.0), (e.duration - 2.8) / (5.6 - 2.8),
                       (e.delay - 0.0) / (2.6 - 0.0));
    Draws.RandOnto(e.x, 36.0, 64.0);
    Draws.RandOnto(e.y, 44.0, 92.0);
    Draws.RandOnto(e.size, 6.0, 14.0);
    Draws.RandOnto(e.duration, 2.8, 5.6);
    Draws.RandOnto(e.delay, 0.0, 2.6);
    assert d.Valid() && MakeEmber(d) == e;
  }

  /**
    `spawnEmbers`: when the wrapper is absent nothing happens (`None` in,
    `None` out). Otherwise its previous children are discarded and it
    holds exactly `count` new embers (none for a negative count), the
    i-th made from the i-th draws, each within the spawn ranges.
   */
  method SpawnEmbers(wrap: Option<seq<Ember>>, count: int, draws: seq<EmberDraw>)
    returns (r: Option<seq<Ember>>)
    requires count <= |draws|
    requires forall i :: 0 <= i < |draws| ==> draws[i].Valid()
    ensures wrap.None? <==> r.None?
    ensures r.Some? ==> |r.value| == (if count < 0 then 0 else count)
    ensures r.Some? ==> forall i :: 0 <= i < |r.value| ==> r.value[i] == MakeEmber(draws[i])
    ensures r.Some? ==> forall i :: 0 <= i < |r.value| ==> InRange(r.value[i])
  {
    if wrap.None? {
      return None;
    }
    var children: seq<Ember> := [];
    var i := 0;
    while i < count
      invariant 0 <= i <= (if count < 0 then 0 else count)
      invariant |children| == i
      invariant forall j :: 0 <= j < i ==> children[j] == MakeEmber(draws[j])
    {
      children := children + [MakeEmber(draws[i])];
      i := i + 1;
    }
    return Some(children);
  }

  /**
    The spawn the page schedules once it has loaded: `LoadCount` embers
    replace whatever the wrapper held.
   */
  method SpawnOnLoad(wrap: Option<seq<Ember>>, draws: seq<EmberDraw>) returns (r: Option<seq<Ember>>)
    requires LoadCount <= |draws|
    requires forall i :: 0 <= i < |draws| ==> draws[i].Valid()
    ensures wrap.None? <==> r.None?
    ensures r.Some? ==> |r.value| == 14
    ensures r.Some? ==> forall i :: 0 <= i < |r.value| ==> InRange(r.value[i])
  {
    r := SpawnEmbers(wrap, LoadCount, draws);
  }
}

=== FILE: options.dfy ===
/** An optional value: an absent DOM node or field, or a flip timer not yet armed. */
module Options {

  datatype Option<T> = None | Some(value: T)
}

=== FILE: reader.dfy ===
/**
  The lore reader of `app.js`: a book of spreads (a left and a right page)
  that opens over the page, turns forward with a page-flip animation and
  jumps back without one. The flip's 1260 ms timer is the explicit
  `FlipTimer` event; the text the script writes into the page fields is
  kept as a `View`.
 */
module Reader {

  import opened Options

  /** One page of content; a field may be absent. */
  datatype Page = Page(title: Option<string>, body: Option<string>, footer: Option<string>)

  /** A two-page spread. */
  datatype Spread = Spread(left: Page, right: Page)

  /** The content table, in reading order. */
  const Spreads: seq<Spread> := [
    Spread(
      Page(Some("The Desk in the Attic"),
           Some("A place to set the weight of memory.\n\nThe wood remembers every candle.\nThe room remembers every oath."),
           Some("— Stag Lore")),
      Page(Some("The Sigil"),
           Some("The stag is not decoration.\n\nIt is a claim.\nA boundary.\nA witness."),
           Some("Page One"))),
    Spread(
      Page(Some("House Rule"),
           Some("Nothing in this book is hurried.\n\nIf you feel it rushing, you are reading it wrong."),
           Some("—")),
      Page(Some("Ember Oath"),
           Some("We do not burn to destroy.\nWe burn to reveal."),
           Some("—"))),
    Spread(
      Page(Some("Threshold Notes"),
           Some("Guests arrive with stories.\nSome are theirs.\nSome are older than they are."),
           Some("—")),
      Page(Some("A Quiet Charge"),
           Some("Speak the room’s name once.\nThen let the silence finish the spell."),
           Some("—")))
  ]

  /** The three text fields of one page as the script writes them. */
  datatype Texts = Texts(title: string, body: string, footer: string)

  /**
    Everything the reader writes into the page: the two visible pages, the
    spread indicator, and the front and back of the turning leaf.
   */
  datatype View = View(left: Texts, right: Texts, indicator: string, front: Texts, back: Texts)

  /** `field || ""`: an absent (or empty) field is written as the empty string. */
  function OrEmpty(o: Option<string>): (s: string)
    ensures o.None? ==> s == ""
    ensures o.Some? ==> s == o.value
  {
    match o
    case None => ""
    case Some(v) => v
  }

  /** A page as written: each present field verbatim, each absent one empty. */
  function Shown(p: Page): (t: Texts)
    ensures p.title.Some? ==> t.title == p.title.value
    ensures p.body.Some? ==> t.body == p.body.value
    ensures p.footer.Some? ==> t.footer == p.footer.value
    ensures p.title.None? ==> t.title == ""
    ensures p.body.None? ==> t.body == ""
    ensures p.footer.None? ==> t.footer == ""
  {
    Texts(OrEmpty(p.title), OrEmpty(p.body), OrEmpty(p.footer))
  }

  function Digit(d: nat): char
    requires d < 10
  {
    "0123456789"[d]
  }

  /** The decimal numeral of `n`, as a template literal prints it. */
  function NatStr(n: nat): (s: string)
    ensures |s| > 0
    ensures forall i :: 0 <= i < |s| ==> '0' <= s[i] <= '9'
    // no leading zero
    ensures n > 0 ==> s[0] != '0'
    ensures n < 10 <==> |s| == 1
    decreases n
  {
    if n < 10 then [Digit(n)] else NatStr(n / 10) + [Digit(n % 10)]
  }

  /** The value of a string of decimal digits. */
  function ParseNat(s: string): nat
    requires forall i :: 0 <= i < |s| ==> '0' <= s[i] <= '9'
    decreases |s|
  {
    if |s| == 0 then 0
    else ParseNat(s[..|s| - 1]) * 10 + (s[|s| - 1] as int - '0' as int)
  }

  /** Reading a numeral back gives the number it was printed from. */
  lemma {:induction false} ParseNatStr(n: nat)
    ensures ParseNat(NatStr(n)) == n
    decreases n
  {
    var s := NatStr(n);
    DigitValue(n % 10);
    if n >= 10 {
      ParseNatStr(n / 10);
      assert s[..|s| - 1] == NatStr(n / 10);
    }
  }

  /** A digit character stands for its value. */
  lemma DigitValue(d: nat)
    requires d < 10
    ensures Digit(d) as int - '0' as int == d
  {
  }

  /** Distinct numbers print as distinct numerals. */
  lemma NatStrInjective(m: nat, n: nat)
    requires NatStr(m) == NatStr(n)
    ensures m == n
  {
    ParseNatStr(m);
    ParseNatStr(n);
  }

  /** The spread indicator's text for index `idx`. */
  function Indicator(idx: nat): (s: string)
    ensures |s| > 12
    ensures s[..7] == "Spread " && s[|s| - 5..] == " of 3"
    // between the two sits the one-based spread number, as a numeral
    ensures s[7..|s| - 5] == NatStr(idx + 1)
    ensures ParseNat(s[7..|s| - 5]) == idx + 1
  {
    var n := NatStr(idx + 1);
    TotalNumeral();
    ParseNatStr(idx + 1);
    IndicatorParts(n);
    "Spread " + n + " of " + NatStr(|Spreads|)
  }

  /** The table holds three spreads, printed as "3". */
  lemma TotalNumeral()
    ensures NatStr(|Spreads|) == "3"
  {
    assert |Spreads| == 3;
  }

  /** Where the parts of an indicator text sit. */
  lemma IndicatorParts(n: string)
    requires |n| > 0
    ensures var s := "Spread " + n + " of " + "3";
      && |s| > 12 && s[..7] == "Spread " && s[|s| - 5..] == " of 3" && s[7..|s| - 5] == n
  {
    var s := "Spread " + n + " of " + "3";
    assert s[..7] == "Spread ";
    assert s[7..|s| - 5] == n;
    assert s[|s| - 5..] == " of 3";
  }

  /** The indicator names its spread: two indices with the same text are the same index. */
  lemma IndicatorInjective(i: nat, j: nat)
    requires Indicator(i) == Indicator(j)
    ensures i == j
  {
    var tail := " of " + NatStr(|Spreads|);
    assert Indicator(i) == "Spread " + NatStr(i + 1) + tail;
    assert Indicator(j) == "Spread " + NatStr(j + 1) + tail;
    MiddleEqual("Spread ", NatStr(i + 1), NatStr(j + 1), tail);
    NatStrInjective(i + 1, j + 1);
  }

  /** Equal strings with the same prefix and suffix have the same middle. */
  lemma MiddleEqual(p: string, a: string, b: string, t: string)
    requires p + a + t == p + b + t
    ensures a == b
  {
    var s := p + a + t;
    assert |a| == |b|;
    assert a == s[|p|..|p| + |a|];
    assert b == (p + b + t)[|p|..|p| + |b|];
  }

  /** A property of the content table: its three left-page titles are distinct. */
  lemma LeftTitleIdentifiesSpread(i: int, j: int)
    requires 0 <= i < |Spreads| && 0 <= j < |Spreads|
    requires Shown(Spreads[i].left).title == Shown(Spreads[j].left).title
    ensures i == j
  {
    var t0, t1, t2 := Shown(Spreads[0].left).title, Shown(Spreads[1].left).title, Shown(Spreads[2].left).title;
    assert t0[0] == 'T' && t1[0] == 'H' && t2[0] == 'T';
    assert t0[4] == 'D' && t2[4] == 's';
  }

  /** The first spread's indicator reads "Spread 1 of 3". */
  lemma FirstIndicator()
    ensures Indicator(0) == "Spread 1 of 3"
  {
    assert NatStr(1) == "1";
    assert NatStr(3) == "3";
  }

  /**
    `setSpread`: for an index outside the table nothing is written;
    otherwise both pages and the indicator show spread `idx`, and the
    flip leaf is left as it was.
   */
  function SetSpread(v: View, idx: int): (r: View)
    ensures !(0 <= idx < |Spreads|) ==> r == v
    ensures 0 <= idx < |Spreads| ==>
      && r.left == Shown(Spreads[idx].left)
      && r.right == Shown(Spreads[idx].right)
      && r.indicator == Indicator(idx)
      && r.front == v.front && r.back == v.back
  {
    if idx < 0 || idx >= |Spreads| then v
    else
      var s := Spreads[idx];
      v.(left := Shown(s.left), right := Shown(s.right), indicator := Indicator(idx))
  }

  /** What a set spread displays does not depend on what was displayed before. */
  lemma SetSpreadOverwrites(v1: View, v2: View, idx: int)
    requires 0 <= idx < |Spreads|
    requires v1.front == v2.front && v1.back == v2.back
    ensures SetSpread(v1, idx) == SetSpread(v2, idx)
  {
  }

  /**
    The reader: the current spread, whether it is open, whether a flip is
    animating, the index the flip timer will commit, and the page text.
   */
  datatype State = State(index: int, open: bool, flipping: bool, pending: Option<int>, view: View)

  /** The reader before any event; the page text starts as whatever the markup holds. */
  function Initial(v: View): (st: State)
    ensures Inv(st)
    ensures st.index == 0 && st.pending.None?
    ensures !st.open && !st.flipping && st.view == v
  {
    State(0, false, false, None, v)
  }

  /**
    `doFlip`: ignored while a flip is running or for a target outside the
    table; otherwise the flip starts, the leaf shows the current right page
    on its front and the target's left page on its back, and the timer is
    armed to commit the target. The current spread is read only once both
    guards pass.
   */
  function DoFlip(st: State, next: int): (r: State)
    requires !st.flipping && 0 <= next < |Spreads| ==> 0 <= st.index < |Spreads|
    ensures st.flipping || next < 0 || next >= |Spreads| ==> r == st
    ensures !st.flipping && 0 <= next < |Spreads| ==>
      && r.flipping && r.pending == Some(next)
      && r.index == st.index && r.open == st.open
      && r.view.front == Shown(Spreads[st.index].right)
      && r.view.back == Shown(Spreads[next].left)
      && r.view.left == st.view.left && r.view.right == st.view.right
      && r.view.indicator == st.view.indicator
  {
    if st.flipping then st
    else if next < 0 || next >= |Spreads| then st
    else
      var current := Spreads[st.index];
      var target := Spreads[next];
      st.(flipping := true, pending := Some(next),
          view := st.view.(front := Shown(current.right), back := Shown(target.left)))
  }

  /** The flip timer fires: the target becomes the current spread and the lock is released. */
  function FlipDone(st: State): (r: State)
    ensures st.pending.None? ==> r == st
    ensures st.pending.Some? ==>
      && r.index == st.pending.value && !r.flipping && r.pending.None?
      && r.open == st.open
      && r.view == SetSpread(st.view, st.pending.value)
  {
    match st.pending
    case None => st
    case Some(next) =>
      st.(index := next, view := SetSpread(st.view, next), flipping := false, pending := None)
  }

  /** Back navigation (left zone or left arrow): one spread back, unless at the first spread or mid-flip. */
  function Back(st: State): (r: State)
    ensures st.index - 1 < 0 || st.flipping ==> r == st
    ensures !(st.index - 1 < 0 || st.flipping) ==>
      && r.index == st.index - 1 && r.view == SetSpread(st.view, st.index - 1)
      && r.open == st.open && !r.flipping && r.pending == st.pending
  {
    var prev := st.index - 1;
    if prev < 0 || st.flipping then st
    else st.(index := prev, view := SetSpread(st.view, prev))
  }

  /** `openReader`: opens and shows the current spread; no effect when already open. */
  function OpenReader(st: State): (r: State)
    ensures st.open ==> r == st
    ensures !st.open ==> r.open && r.view == SetSpread(st.view, st.index)
    ensures r.index == st.index && r.flipping == st.flipping && r.pending == st.pending
  {
    if st.open then st
    else st.(open := true, view := SetSpread(st.view, st.index))
  }

  /** `closeReader`: closes; the spread, the flip lock and a pending commit are kept. */
  function CloseReader(st: State): (r: State)
    ensures !r.open
    ensures r.index == st.index && r.flipping == st.flipping && r.pending == st.pending
    ensures r.view == st.view
  {
    if !st.open then st
    else st.(open := false)
  }

  /** `keydown`: ignored while closed; Escape closes, ArrowRight turns forward, ArrowLeft goes back. */
  function KeyDown(st: State, key: string): (r: State)
    requires !st.flipping && st.index + 1 < |Spreads| ==> 0 <= st.index
    ensures !st.open ==> r == st
    ensures st.open && key == "Escape" ==> r == CloseReader(st)
    ensures st.open && key == "ArrowRight" ==> r == DoFlip(st, st.index + 1)
    ensures st.open && key == "ArrowLeft" ==> r == Back(st)
    ensures key != "Escape" && key != "ArrowRight" && key != "ArrowLeft" ==> r == st
  {
    if !st.open then st
    else if key == "Escape" then CloseReader(st)
    else if key == "ArrowRight" then DoFlip(st, st.index + 1)
    else if key == "ArrowLeft" then Back(st)
    else st
  }

  /**
    The events the reader handles. `BookClick` opens it; `ReaderClick` is a
    click inside the reader, which closes it when it lands on a close
    control; `ZoneRight` and `ZoneLeft` are the page-turn zones.
   */
  datatype Event =
    | BookClick
    | ReaderClick(onClose: bool)
    | ZoneRight
    | ZoneLeft
    | Key(key: string)
    | FlipTimer

  /** What every reachable reader satisfies. */
  predicate Inv(st: State) {
    && 0 <= st.index < |Spreads|
    && (st.flipping <==> st.pending.Some?)
    && (st.flipping ==> st.pending.value == st.index + 1 && st.index + 1 < |Spreads|)
  }

  /** One event. */
  function Apply(st: State, ev: Event): (r: State)
    requires Inv(st)
    ensures Inv(r)
    ensures ev.BookClick? ==> r == OpenReader(st)
    ensures ev.ReaderClick? ==> r == (if ev.onClose then CloseReader(st) else st)
    ensures ev.ZoneRight? ==> r == DoFlip(st, st.index + 1)
    ensures ev.ZoneLeft? ==> r == Back(st)
    ensures ev.Key? ==> r == KeyDown(st, ev.key)
    ensures ev.FlipTimer? ==> r == FlipDone(st)
  {
    match ev
    case BookClick => OpenReader(st)
    case ReaderClick(onClose) => if onClose then CloseReader(st) else st
    case ZoneRight => DoFlip(st, st.index + 1)
    case ZoneLeft => Back(st)
    case Key(key) => KeyDown(st, key)
    case FlipTimer => FlipDone(st)
  }

  /** Events in order. */
  function Run(st: State, evs: seq<Event>): (r: State)
    requires Inv(st)
    ensures Inv(r)
    decreases |evs|
  {
    if |evs| == 0 then st else Run(Apply(st, evs[0]), evs[1..])
  }

  /** The spread index stays inside the table under every event sequence from the start. */
  lemma IndexAlwaysInRange(v: View, evs: seq<Event>)
    ensures Inv(Initial(v))
    ensures 0 <= Run(Initial(v), evs).index < |Spreads|
  {
  }

  /** The first book click opens the reader on spread 1: "Spread 1 of 3" is shown. */
  lemma FirstOpenShowsSpreadOne(v: View)
    ensures Apply(Initial(v), BookClick).open
    ensures Apply(Initial(v), BookClick).index == 0
    ensures Apply(Initial(v), BookClick).view.indicator == "Spread 1 of 3"
  {
    FirstIndicator();
  }

  /** A flip is a lock: until its timer fires, no event moves the spread or the pending target. */
  lemma FlipIsLock(st: State, ev: Event)
    requires Inv(st) && st.flipping
    requires ev != FlipTimer
    ensures Apply(st, ev).index == st.index
    ensures Apply(st, ev).flipping && Apply(st, ev).pending == st.pending
  {
  }

  /** The flip timer commits exactly one spread forward and releases the lock. */
  lemma FlipCommitsNext(st: State)
    requires Inv(st) && st.flipping
    ensures Apply(st, FlipTimer).index == st.index + 1
    ensures !Apply(st, FlipTimer).flipping
    ensures Apply(st, FlipTimer).view.indicator == Indicator(st.index + 1)
  {
  }

  /** A forward turn from spread `i` followed by its timer lands on spread `i + 1`, when there is one. */
  lemma TurnForward(st: State)
    requires Inv(st) && !st.flipping
    ensures st.index + 1 < |Spreads| ==>
      Run(st, [ZoneRight, FlipTimer]).index == st.index + 1
    ensures st.index + 1 >= |Spreads| ==>
      Run(st, [ZoneRight, FlipTimer]) == st
  {
    var a := Apply(st, ZoneRight);
    assert Run(st, [ZoneRight, FlipTimer]) == Run(a, [FlipTimer]);
    assert Run(a, [FlipTimer]) == Run(Apply(a, FlipTimer), []);
  }

  /** Closing mid-flip does not cancel it: the timer still commits the target. */
  lemma CloseDoesNotCancelFlip(st: State)
    requires Inv(st) && st.flipping
    ensures var closed := Apply(st, ReaderClick(true));
      && !closed.open && closed.flipping
      && Apply(closed, FlipTimer).index == st.index + 1
  {
  }

  /** Back navigation moves exactly one spread back, and only when allowed. */
  lemma BackStepsOne(st: State)
    requires Inv(st)
    ensures st.index > 0 && !st.flipping ==> Apply(st, ZoneLeft).index == st.index - 1
    ensures st.index == 0 || st.flipping ==> Apply(st, ZoneLeft) == st
    ensures st.open ==> Apply(st, Key("ArrowLeft")) == Apply(st, ZoneLeft)
  {
  }

  /** Opening and closing are idempotent. */
  lemma OpenCloseIdempotent(st: State)
    requires Inv(st)
    ensures Apply(Apply(st, BookClick), BookClick) == Apply(st, BookClick)
    ensures Apply(Apply(st, ReaderClick(true)), ReaderClick(true)) == Apply(st, ReaderClick(true))
  {
  }

  /** Keys do nothing while the reader is closed, whatever the key. */
  lemma KeysIgnoredWhenClosed(st: State, key: string)
    requires Inv(st) && !st.open
    ensures Apply(st, Key(key)) == st
  {
  }
}

=== FILE: sparks.dfy ===
/**
  The spark animation of `script.js`. Sparks live in a FIFO buffer of at
  most 60 entries; every animation frame spawns one spark, ages and moves
  all of them, and culls the ones past their lifetime. The engine is a
  two-state machine (stopped, running) driven by the anchor's hover and
  focus events. The frame callback and the random source are explicit
  inputs: a `Frame` event stands for one `requestAnimationFrame` callback,
  and each spawn receives its six unit draws.
 */
module Sparks {

  import Draws
  import BookAnchor

  /** The buffer's capacity: a spawn beyond it evicts the oldest spark. */
  const Capacity: nat := 60

  /**
    One spark, in canvas coordinates: position, velocity per frame, draw
    radius, lifetime in frames and age in frames.
   */
  datatype Spark = Spark(x: real, y: real, vx: real, vy: real, r: real, life: real, t: nat)

  /** The six `Math.random()` values one spawn consumes, in the order the fields are drawn. */
  datatype SparkDraw = SparkDraw(ux: real, uy: real, uvx: real, uvy: real, ur: real, ulife: real) {
    predicate Valid() {
      Draws.Unit(ux) && Draws.Unit(uy) && Draws.Unit(uvx) && Draws.Unit(uvy)
      && Draws.Unit(ur) && Draws.Unit(ulife)
    }
  }

  /** The per-spark ranges a spawn establishes and motion never changes. */
  predicate WellFormed(s: Spark) {
    && 30.0 <= s.life < 60.0
    && -0.15 <= s.vx < 0.15
    && -0.9 <= s.vy < -0.4
    && 0.8 <= s.r < 2.2
  }

  /** A spark survives the cull while its age has not passed its lifetime. */
  predicate Alive(s: Spark) {
    s.t as real <= s.life
  }

  /**
    A new spark. Its position is drawn from the middle band of the canvas
    measured in backing-store pixels (`canvas.width`, `canvas.height`), not
    in the CSS pixels the drawing transform uses.
   */
  function NewSpark(w: real, h: real, d: SparkDraw): (s: Spark)
    requires d.Valid()
    ensures WellFormed(s) && s.t == 0
    ensures s.life > 0.0 && Alive(s)
    ensures s.vy < 0.0
    ensures w >= 0.0 ==> w * 0.35 <= s.x <= w * 0.65
    ensures w > 0.0 ==> s.x < w * 0.65
    ensures h >= 0.0 ==> h * 0.6 <= s.y <= h * 0.8
    ensures h > 0.0 ==> s.y < h * 0.8
  {
    Spark(Draws.Rand(d.ux, w * 0.35, w * 0.65),
          Draws.Rand(d.uy, h * 0.6, h * 0.8),
          Draws.Rand(d.uvx, -0.15, 0.15),
          Draws.Rand(d.uvy, -0.9, -0.4),
          Draws.Rand(d.ur, 0.8, 2.2),
          Draws.Rand(d.ulife, 30.0, 60.0),
          0)
  }

  /** The spawn ranges are tight: every well-formed newborn spark inside the band is one a spawn can produce. */
  lemma NewSparkOnto(w: real, h: real, s: Spark)
    requires w > 0.0 && h > 0.0
    requires WellFormed(s) && s.t == 0
    requires w * 0.35 <= s.x < w * 0.65 && h * 0.6 <= s.y < h * 0.8
    ensures exists d: SparkDraw :: d.Valid() && NewSpark(w, h, d) == s
  {
    Draws.RandOnto(s.x, w * 0.35, w * 0.65);
    Draws.RandOnto(s.y, h * 0.6, h * 0.8);
    Draws.RandOnto(s.vx, -0.15, 0.15);
    Draws.RandOnto(s.vy, -0.9, -0.4);
    Draws.RandOnto(s.r, 0.8, 2.2);
    Draws.RandOnto(s.life, 30.0, 60.0);
    var d := SparkDraw((s.x - w * 0.35) / (w * 0.65 - w * 0.35), (s.y - h * 0.6) / (h * 0.8 - h * 0.6),
                       (s.vx - -0.15) / (0.15 - -0.15), (s.vy - -0.9) / (-0.4 - -0.9),
                       (s.r - 0.8) / (2.2 - 0.8), (s.life - 30.0) / (60.0 - 30.0));
    assert d.Valid() && NewSpark(w, h, d) == s;
  }

  /**
    The buffer's push: append `x`; when the buffer then holds more than the
    capacity, drop exactly the oldest entry.
   */
  function Push<T>(buf: seq<T>, x: T): (r: seq<T>)
    ensures |r| > 0 && r[|r| - 1] == x
    ensures |buf| <= Capacity ==> |r| <= Capacity
    ensures |buf| < Capacity ==> |r| == |buf| + 1 && r[..|buf|] == buf
    ensures |buf| >= Capacity ==> |r| == |buf| && r[..|r| - 1] == buf[1..]
  {
    var grown := buf + [x];
    if |grown| > Capacity then
      assert grown[1..][..|buf| - 1] == buf[1..];
      grown[1..]
    else
      assert grown[..|buf|] == buf;
      grown
  }

  /**
    `spawn`: push one new spark. Below capacity the buffer grows by the new
    spark; at capacity the oldest spark makes room for it.
   */
  function Spawn(sparks: seq<Spark>, w: real, h: real, d: SparkDraw): (r: seq<Spark>)
    requires d.Valid()
    ensures |sparks| < Capacity ==> r == sparks + [NewSpark(w, h, d)]
    ensures |sparks| >= Capacity ==> r == sparks[1..] + [NewSpark(w, h, d)]
    ensures |sparks| <= Capacity ==> |r| <= Capacity
  {
    var r := Push(sparks, NewSpark(w, h, d));
    assert r == r[..|r| - 1] + [r[|r| - 1]];
    r
  }

  /** `P` holds of every entry of `s`. */
  predicate Every<T>(s: seq<T>, P: T -> bool) {
    forall i :: 0 <= i < |s| ==> P(s[i])
  }

  /** A push keeps any per-entry property that the pushed value also has. */
  lemma PushKeeps<T>(buf: seq<T>, x: T, P: T -> bool)
    requires Every(buf, P) && P(x)
    ensures Every(Push(buf, x), P)
  {
    var r := Push(buf, x);
    var front := r[..|r| - 1];
    assert front == buf || front == buf[1..];
    assert Every(front, P);
    forall i | 0 <= i < |r|
      ensures P(r[i])
    {
      if i < |r| - 1 {
        assert r[i] == front[i];
      }
    }
  }

  /** The newest `n` entries of `a`: a sliding window over the push history. */
  function Newest<T>(a: seq<T>, n: nat): seq<T> {
    if |a| <= n then a else a[|a| - n..]
  }

  /** Push each of `xs`, in order. */
  function PushAll<T>(buf: seq<T>, xs: seq<T>): seq<T>
    decreases |xs|
  {
    if |xs| == 0 then buf else PushAll(Push(buf, xs[0]), xs[1..])
  }

  /**
    Any run of pushes on a buffer within capacity leaves exactly the newest
    `Capacity` entries of the whole history, in push order.
   */
  lemma {:induction false} PushAllIsWindow<T>(buf: seq<T>, xs: seq<T>)
    requires |buf| <= Capacity
    ensures PushAll(buf, xs) == Newest(buf + xs, Capacity)
    ensures |PushAll(buf, xs)| <= Capacity
    decreases |xs|
  {
    if |xs| == 0 {
      assert buf + xs == buf;
    } else {
      var next := Push(buf, xs[0]);
      var rest := xs[1..];
      PushAllIsWindow(next, rest);
      var all := buf + [xs[0]] + rest;
      assert buf + xs == all;
      if |buf| + 1 <= Capacity {
        assert next == buf + [xs[0]];
        assert next + rest == all;
      } else {
        assert next == (buf + [xs[0]])[1..];
        assert next + rest == all[1..];
        assert Newest(all[1..], Capacity) == Newest(all, Capacity);
      }
    }
  }

  /** One frame of motion: the age rises by one and the position moves by the velocity. */
  function Advance(s: Spark): (r: Spark)
    ensures r.t == s.t + 1
    // the velocity is the displacement per frame
    ensures r.x - s.x == s.vx && r.y - s.y == s.vy
    ensures r.vx == s.vx && r.vy == s.vy && r.r == s.r && r.life == s.life
  {
    s.(x := s.x + s.vx, y := s.y + s.vy, t := s.t + 1)
  }

  /** `k` frames of motion. */
  function AdvanceBy(s: Spark, k: nat): Spark
    decreases k
  {
    if k == 0 then s else Advance(AdvanceBy(s, k - 1))
  }

  /** After `k` frames a spark is `k` frames older and `k` velocity steps further on; nothing else changes. */
  lemma {:induction false} AdvanceByIsLinear(s: Spark, k: nat)
    ensures AdvanceBy(s, k) == s.(x := s.x + (k as real) * s.vx, y := s.y + (k as real) * s.vy, t := s.t + k)
    decreases k
  {
    if k > 0 {
      AdvanceByIsLinear(s, k - 1);
    }
  }

  /** Motion keeps the spawn ranges: velocity, radius and lifetime never change. */
  lemma AdvanceKeepsWellFormed(s: Spark)
    requires WellFormed(s)
    ensures WellFormed(Advance(s))
    ensures Advance(s).life == s.life && Advance(s).r == s.r
    ensures Advance(s).vx == s.vx && Advance(s).vy == s.vy
  {
  }

  /** The fill opacity a spark is drawn with: `1 - t / life`. */
  function Alpha(s: Spark): (a: real)
    requires s.life > 0.0
    ensures a <= 1.0
    ensures s.t == 0 ==> a == 1.0
    // the opacity is the fraction of the lifetime still to run
    ensures a * s.life == s.life - s.t as real
  {
    var q := s.t as real / s.life;
    assert q * s.life == s.t as real;
    assert q >= 0.0 by {
      if q < 0.0 {
        Draws.MulPositive(-q, s.life);
      }
    }
    1.0 - q
  }

  /** Opacity falls by exactly `1 / life` per frame, so it never rises with age. */
  lemma AlphaFalls(s: Spark)
    requires s.life > 0.0
    ensures Alpha(Advance(s)) == Alpha(s) - 1.0 / s.life
    ensures Alpha(Advance(s)) < Alpha(s)
  {
    assert (s.t as real + 1.0) / s.life == s.t as real / s.life + 1.0 / s.life;
  }

  /** Opacity is non-increasing in age over any number of frames. */
  lemma {:induction false} AlphaNonIncreasing(s: Spark, k: nat)
    requires s.life > 0.0
    ensures AdvanceBy(s, k).life == s.life
    ensures Alpha(AdvanceBy(s, k)) <= Alpha(s)
    decreases k
  {
    if k > 0 {
      AlphaNonIncreasing(s, k - 1);
      AlphaFalls(AdvanceBy(s, k - 1));
    }
  }

  /** The cull keeps exactly the sparks whose opacity has not gone negative; opacity is zero at `t = life`. */
  lemma AliveIffVisible(s: Spark)
    requires s.life > 0.0
    ensures Alive(s) <==> Alpha(s) >= 0.0
    ensures s.t as real == s.life ==> Alpha(s) == 0.0
  {
    var q := s.t as real / s.life;
    assert s.t as real == q * s.life;
    if q > 1.0 {
      Draws.MulPositive(q - 1.0, s.life);
    } else {
      Draws.MulNonNegative(1.0 - q, s.life);
    }
  }

  /** Age and move every spark, in place and in order. */
  function AdvanceAll(sparks: seq<Spark>): (r: seq<Spark>)
    ensures |r| == |sparks|
    ensures forall i :: 0 <= i < |sparks| ==> r[i] == Advance(sparks[i])
  {
    seq(|sparks|, i requires 0 <= i < |sparks| => Advance(sparks[i]))
  }

  /** Motion keeps any spark within its spawn ranges. */
  lemma AdvanceAllKeepsWellFormed(sparks: seq<Spark>)
    requires Every(sparks, WellFormed)
    ensures Every(AdvanceAll(sparks), WellFormed)
  {
    var moved := AdvanceAll(sparks);
    forall i | 0 <= i < |moved|
      ensures WellFormed(moved[i])
    {
      AdvanceKeepsWellFormed(sparks[i]);
    }
  }

  /** The sparks that survive the cull, in their original order. */
  function Survivors(sparks: seq<Spark>): (r: seq<Spark>)
    ensures |r| <= |sparks|
    ensures forall i :: 0 <= i < |r| ==> Alive(r[i]) && r[i] in sparks
    decreases |sparks|
  {
    if |sparks| == 0 then []
    else if Alive(sparks[0]) then [sparks[0]] + Survivors(sparks[1..])
    else Survivors(sparks[1..])
  }

  /** The cull distributes over concatenation, so it never reorders survivors. */
  lemma {:induction false} SurvivorsAppend(a: seq<Spark>, b: seq<Spark>)
    ensures Survivors(a + b) == Survivors(a) + Survivors(b)
    decreases |a|
  {
    if |a| > 0 {
      assert (a + b)[0] == a[0];
      assert (a + b)[1..] == a[1..] + b;
      SurvivorsAppend(a[1..], b);
    } else {
      assert a + b == b;
    }
  }

  /** A spark is kept by the cull exactly when it was present and alive. */
  lemma {:induction false} SurvivorsMembership(sparks: seq<Spark>, s: Spark)
    ensures s in Survivors(sparks) <==> s in sparks && Alive(s)
    decreases |sparks|
  {
    if |sparks| > 0 {
      SurvivorsMembership(sparks[1..], s);
      assert sparks == [sparks[0]] + sparks[1..];
    }
  }

  /** The cull keeps any per-spark property of its input. */
  lemma {:induction false} SurvivorsKeeps(sparks: seq<Spark>, P: Spark -> bool)
    requires Every(sparks, P)
    ensures Every(Survivors(sparks), P)
    decreases |sparks|
  {
    if |sparks| > 0 {
      var rest := sparks[1..];
      assert forall i :: 0 <= i < |rest| ==> rest[i] == sparks[i + 1];
      SurvivorsKeeps(rest, P);
      if Alive(sparks[0]) {
        var r := [sparks[0]] + Survivors(rest);
        assert forall i :: 1 <= i < |r| ==> r[i] == Survivors(rest)[i - 1];
      }
    }
  }

  /** The cull removes nothing from a buffer of live sparks. */
  lemma {:induction false} SurvivorsOfLive(sparks: seq<Spark>)
    requires Every(sparks, Alive)
    ensures Survivors(sparks) == sparks
    decreases |sparks|
  {
    if |sparks| > 0 {
      SurvivorsOfLive(sparks[1..]);
    }
  }

  /**
    One turn of the cull loop at index `i`: the entries after `i` are
    already culled, and removing entry `i` exactly when it is dead extends
    the culled suffix by one.
   */
  lemma CullTurn(sparks: seq<Spark>, i: int, r: seq<Spark>)
    requires 0 <= i < |sparks|
    requires r == sparks[..i + 1] + Survivors(sparks[i + 1..])
    ensures r[i] == sparks[i]
    ensures Alive(sparks[i]) ==> r == sparks[..i] + Survivors(sparks[i..])
    ensures !Alive(sparks[i]) ==> r[..i] + r[i + 1..] == sparks[..i] + Survivors(sparks[i..])
  {
    var head, x, kept := sparks[..i], sparks[i], Survivors(sparks[i + 1..]);
    assert sparks[..i + 1] == head + [x];
    SurvivorsAt(sparks, i);
    Splice(head, x, kept);
  }

  /** The cull of a suffix: the suffix's first spark if alive, then the cull of the rest. */
  lemma SurvivorsAt(sparks: seq<Spark>, i: int)
    requires 0 <= i < |sparks|
    ensures Survivors(sparks[i..]) == (if Alive(sparks[i]) then [sparks[i]] else []) + Survivors(sparks[i + 1..])
  {
    assert sparks[i..][0] == sparks[i] && sparks[i..][1..] == sparks[i + 1..];
  }

  /** Removing the middle entry of `head + [x] + tail`. */
  lemma Splice<T>(head: seq<T>, x: T, tail: seq<T>)
    ensures var r := head + [x] + tail;
      && r[|head|] == x
      && r == head + ([x] + tail)
      && r[..|head|] + r[|head| + 1..] == head + tail
  {
    var r := head + [x] + tail;
    assert r[..|head|] == head;
    assert r[|head| + 1..] == tail;
  }

  /**
    The cull loop as written: walk the buffer from the back and splice out
    every spark whose age is past its lifetime. It computes `Survivors`.
   */
  method Cull(sparks: seq<Spark>) returns (r: seq<Spark>)
    ensures r == Survivors(sparks)
  {
    r := sparks;
    var i := |r| - 1;
    while i >= 0
      invariant -1 <= i < |sparks|
      invariant r == sparks[..i + 1] + Survivors(sparks[i + 1..])
    {
      CullTurn(sparks, i, r);
      if r[i].t as real > r[i].life {
        r := r[..i] + r[i + 1..];
      }
      i := i - 1;
    }
    assert sparks[..0] == [] && sparks[0..] == sparks;
  }

  /** The spark engine: the running flag, the pending frame handle (0 when none) and the buffer. */
  datatype Engine = Engine(running: bool, raf: nat, sparks: seq<Spark>)

  /** The state before any event: stopped, nothing pending, no sparks. */
  function Idle(): (e: Engine)
    ensures Stop(e) == e && e.sparks == []
    ensures EngineInv(e)
  {
    Engine(false, 0, [])
  }

  /**
    `step`: schedule the next frame under `handle`, spawn one spark on a
    `w` by `h` backing store, age and move every spark, then cull. Drawing
    is not modelled.
   */
  function Step(e: Engine, w: real, h: real, d: SparkDraw, handle: nat): (r: Engine)
    requires d.Valid()
    ensures r.running == e.running && r.raf == handle
    ensures |e.sparks| <= Capacity ==> |r.sparks| <= Capacity
    ensures Every(r.sparks, Alive)
    // the older sparks that outlive the frame, aged and in their order, then
    // the spark spawned in it; at capacity the oldest spark was evicted first
    ensures |e.sparks| < Capacity ==>
      r.sparks == Survivors(AdvanceAll(e.sparks)) + [Advance(NewSpark(w, h, d))]
    ensures |e.sparks| >= Capacity ==>
      r.sparks == Survivors(AdvanceAll(e.sparks[1..])) + [Advance(NewSpark(w, h, d))]
  {
    var x := NewSpark(w, h, d);
    var older := if |e.sparks| < Capacity then e.sparks else e.sparks[1..];
    var spawned := Spawn(e.sparks, w, h, d);
    assert spawned == older + [x];
    AdvanceAllAppend(older, x);
    SurvivorsAppend(AdvanceAll(older), [Advance(x)]);
    assert Survivors([Advance(x)]) == [Advance(x)] by {
      assert [Advance(x)][1..] == [];
    }
    Engine(e.running, handle, Survivors(AdvanceAll(spawned)))
  }

  /** Aging a buffer with one more spark at the end ages that spark last. */
  lemma AdvanceAllAppend(sparks: seq<Spark>, x: Spark)
    ensures AdvanceAll(sparks + [x]) == AdvanceAll(sparks) + [Advance(x)]
  {
  }

  /**
    A frame as a whole: the sparks left after a step are exactly the sparks
    of the spawned buffer, one frame older, that are still alive.
   */
  lemma StepMembership(e: Engine, w: real, h: real, d: SparkDraw, handle: nat, s: Spark)
    requires d.Valid()
    ensures s in Step(e, w, h, d, handle).sparks
      <==> Alive(s) && exists i :: 0 <= i < |Spawn(e.sparks, w, h, d)| && s == Advance(Spawn(e.sparks, w, h, d)[i])
  {
    var spawned := Spawn(e.sparks, w, h, d);
    assert Step(e, w, h, d, handle).sparks == Survivors(AdvanceAll(spawned));
    AgeAndCullMembership(spawned, s);
  }

  /**
    What a frame does to each spark: every spark left after aging and
    culling a buffer is a spark of that buffer one frame older and alive,
    and every such spark is left.
   */
  lemma AgeAndCullMembership(buf: seq<Spark>, s: Spark)
    ensures s in Survivors(AdvanceAll(buf))
      <==> Alive(s) && exists i :: 0 <= i < |buf| && s == Advance(buf[i])
  {
    var moved := AdvanceAll(buf);
    SurvivorsMembership(moved, s);
    if s in moved {
      var i :| 0 <= i < |moved| && moved[i] == s;
      assert s == Advance(buf[i]);
    }
    if exists i :: 0 <= i < |buf| && s == Advance(buf[i]) {
      var i :| 0 <= i < |buf| && s == Advance(buf[i]);
      assert moved[i] == s;
    }
  }

  /**
    `start`: nothing happens while running; otherwise the engine starts
    running with an emptied buffer and performs one step at once.
   */
  function Start(e: Engine, w: real, h: real, d: SparkDraw, handle: nat): (r: Engine)
    requires d.Valid()
    ensures e.running ==> r == e
    ensures !e.running ==> r.running && r.raf == handle
    ensures !e.running ==> r.sparks == [Advance(NewSpark(w, h, d))] && r.sparks[0].t == 1
  {
    if e.running then e
    else
      var r := Step(Engine(true, e.raf, []), w, h, d, handle);
      assert AdvanceAll([NewSpark(w, h, d)])[0] == Advance(NewSpark(w, h, d));
      r
  }

  /** `stop`: not running, no pending frame; the buffer itself is left as it was (only the canvas is cleared). */
  function Stop(e: Engine): (r: Engine)
    ensures !r.running && r.raf == 0
    ensures r.sparks == e.sparks
  {
    Engine(false, 0, e.sparks)
  }

  /** Starting twice is starting once: the second start finds the engine running. */
  lemma StartIdempotent(e: Engine, w: real, h: real, d: SparkDraw, handle: nat,
                        w2: real, h2: real, d2: SparkDraw, handle2: nat)
    requires d.Valid() && d2.Valid()
    ensures Start(Start(e, w, h, d, handle), w2, h2, d2, handle2) == Start(e, w, h, d, handle)
  {
  }

  /** Stopping twice is stopping once. */
  lemma StopIdempotent(e: Engine)
    ensures Stop(Stop(e)) == Stop(e)
  {
  }

  /** Everything the page wires to the script: the geometry and the engine. */
  datatype Scene = Scene(layout: BookAnchor.Layout, engine: Engine)

  /**
    The events the script reacts to. `Enter` is `mouseenter` or `focusin`,
    `Leave` is `mouseleave` or `focusout`, `Resize` is the window's resize or
    the background's load (both run `snapBook`, and the host reports the
    anchor's bounding box after it), and `Frame` is one animation-frame
    callback. `handle` is the id the host returns for the next frame request.
   */
  datatype Event =
    | Resize(complete: bool, vw: real, vh: real, dpr: real, boundsWidth: real, boundsHeight: real)
    | Enter(d: SparkDraw, handle: nat)
    | Leave
    | Frame(d: SparkDraw, handle: nat)

  /** What the host guarantees of an event: unit draws and a non-zero frame handle. */
  predicate EventOk(ev: Event) {
    match ev
    case Enter(d, handle) => d.Valid() && handle > 0
    case Frame(d, handle) => d.Valid() && handle > 0
    case _ => true
  }

  /** One event. A frame callback only arrives while a frame is pending. */
  function Apply(sc: Scene, ev: Event): (r: Scene)
    requires EventOk(ev)
    ensures ev.Resize? ==> r == sc.(layout := BookAnchor.SnapBook(sc.layout, ev.complete, ev.vw, ev.vh, ev.dpr, ev.boundsWidth, ev.boundsHeight))
    // leaving stops the engine and keeps the spark array as it is
    ensures ev.Leave? ==> r == sc.(engine := Stop(sc.engine))
    ensures ev.Frame? && sc.engine.raf == 0 ==> r == sc
    // spawns use the backing-store size of the canvas, not its CSS size
    ensures ev.Enter? ==> r == sc.(engine := Start(sc.engine, sc.layout.canvas.width, sc.layout.canvas.height, ev.d, ev.handle))
    ensures ev.Frame? && sc.engine.raf != 0 ==>
      r == sc.(engine := Step(sc.engine, sc.layout.canvas.width, sc.layout.canvas.height, ev.d, ev.handle))
  {
    var c := sc.layout.canvas;
    match ev
    case Resize(complete, vw, vh, dpr, bw, bh) =>
      sc.(layout := BookAnchor.SnapBook(sc.layout, complete, vw, vh, dpr, bw, bh))
    case Enter(d, handle) => sc.(engine := Start(sc.engine, c.width, c.height, d, handle))
    case Leave => sc.(engine := Stop(sc.engine))
    case Frame(d, handle) =>
      if sc.engine.raf == 0 then sc
      else sc.(engine := Step(sc.engine, c.width, c.height, d, handle))
  }

  /**
    What holds of every reachable engine: a frame is pending exactly while
    running, the buffer is within capacity, and every spark keeps its spawn
    ranges and is alive.
   */
  predicate EngineInv(e: Engine) {
    && (e.running <==> e.raf != 0)
    && |e.sparks| <= Capacity
    && Every(e.sparks, WellFormed)
    && Every(e.sparks, Alive)
  }

  /** A step keeps every buffered spark within its spawn ranges. */
  lemma StepKeepsWellFormed(e: Engine, w: real, h: real, d: SparkDraw, handle: nat)
    requires d.Valid()
    requires Every(e.sparks, WellFormed)
    ensures Every(Step(e, w, h, d, handle).sparks, WellFormed)
  {
    PushKeeps(e.sparks, NewSpark(w, h, d), WellFormed);
    var spawned := Spawn(e.sparks, w, h, d);
    AdvanceAllKeepsWellFormed(spawned);
    SurvivorsKeeps(AdvanceAll(spawned), WellFormed);
    assert Step(e, w, h, d, handle).sparks == Survivors(AdvanceAll(spawned));
  }

  /** Every event keeps the engine invariant. */
  lemma ApplyKeepsInv(sc: Scene, ev: Event)
    requires EventOk(ev)
    requires EngineInv(sc.engine)
    ensures EngineInv(Apply(sc, ev).engine)
  {
    var c := sc.layout.canvas;
    match ev
    case Resize(_, _, _, _, _, _) =>
    case Leave =>
    case Enter(d, handle) =>
      if !sc.engine.running {
        StepKeepsWellFormed(Engine(true, sc.engine.raf, []), c.width, c.height, d, handle);
      }
    case Frame(d, handle) =>
      if sc.engine.raf != 0 {
        StepKeepsWellFormed(sc.engine, c.width, c.height, d, handle);
      }
  }

  /** Events in order; the engine invariant holds after any sequence of events. */
  function Run(sc: Scene, evs: seq<Event>): (r: Scene)
    requires Every(evs, EventOk)
    ensures EngineInv(sc.engine) ==> EngineInv(r.engine)
    decreases |evs|
  {
    if |evs| == 0 then sc
    else
      assert EngineInv(sc.engine) ==> EngineInv(Apply(sc, evs[0]).engine) by {
        if EngineInv(sc.engine) {
          ApplyKeepsInv(sc, evs[0]);
        }
      }
      Run(Apply(sc, evs[0]), evs[1..])
  }

  /** Every engine reachable from the idle one satisfies the invariant; in particular it holds at most 60 sparks. */
  lemma IdleInv(layout: BookAnchor.Layout, evs: seq<Event>)
    requires Every(evs, EventOk)
    ensures EngineInv(Run(Scene(layout, Idle()), evs).engine)
    ensures |Run(Scene(layout, Idle()), evs).engine.sparks| <= Capacity
  {
  }

  /**
    Spawn positions use the backing store, not the CSS box the drawing
    transform maps to: at a device pixel ratio of 2 a spark can start beyond
    the right edge of the canvas as drawn.
   */
  lemma SpawnBeyondCssBox(bw: real, bh: real, d: SparkDraw)
    requires bw > 0.0 && bh >= 0.0
    requires d.Valid() && d.ux == 0.9
    ensures var c := BookAnchor.ResizeCanvas(bw, bh, 2.0);
      NewSpark(c.width, c.height, d).x > c.cssWidth
  {
    var c := BookAnchor.ResizeCanvas(bw, bh, 2.0);
    assert c.width == bw * 2.0;
  }
}
